=== FILE: README.md ===
# Observability library core, modelled in Dafny

This project models three small pieces of sequential logic in a Go observability library:

- **The bulkhead** (`bulkhead/bulkhead.go`). It is a counting semaphore of fixed capacity that guards `Execute`.
  - The buffered channel becomes a count of held permits (`Bulkhead`).
  - Concurrent `Execute` calls become an event trace over a table of calls (`System`).
  - The events are: a call begins; it takes a permit; its timer fires; its context ends; `fn` returns.
  - Each call records whether its context can end at all. `context.Background()` and `context.TODO()` have a nil `Done()` channel, so their `select` case never fires and such a call is never cancelled.
  - When several events are possible, any may happen next. This covers every order Go's `select` can pick, and more: see "## Left out" on release and admission.
  - The lemmas hold over arbitrary interleavings:
    - usage stays within capacity;
    - each running call holds exactly one permit;
    - no permit leaks;
    - capacity never changes;
    - `fn` runs at most once per call;
    - a call that has returned was ended by exactly one event, and its outcome never changes.
  - The outcome records which `select` case fired. The caller sees only the returned error (`ExecuteResult`), and that error does not always tell the cases apart: the timer, a context past its deadline, and an `fn` returning `context.DeadlineExceeded` all return the same value.
- **`AppError`** (`errors/errors.go` and its near-copy `internal/errors/errors.go`). Each package is one module (`AppErrors`, `InternalAppErrors`) and covers:
  - the `Error()` text;
  - the two constructors;
  - `IsRetryable`.
  Logic the two copies share sits in shared modules:
  - `ErrorFormat`: the text layout;
  - `Retryable`: the codes, the keywords and the keyword loop;
  - `Text`: ASCII lower-casing, `strings.Contains` and `%d`.
- **The metrics managers** (`internal/metrics/manager.go`, `metrics/manager.go`). Each manager is a list of registrars.
  - The internal `Init` stops at the first failing registrar and returns a wrapped error.
  - The public `Init` calls every registrar and logs each failure.
  - The public `NewManager` is a lazily created package-wide instance. The package variable is passed around explicitly as `Package`. A `Register` through the pointer `NewManager` returns updates that package instance (`RegisterShared`).
  - A registrar is known only by what its `Register()` returns. `internal/metrics/manager.go` calls the interface `MetricsRegistrar`, while `internal/metrics/registrar.go` declares it as `Registrar`. Both are the one `Registrars.Registrar` type here.

`NewBulkhead` validates nothing (bulkhead/bulkhead.go:20-26):
- A capacity of zero gives a bulkhead on which every call times out or is cancelled.
- A negative capacity makes `make` panic.
- So `NewBulkhead` requires `capacity >= 0` and has no error case.

`Error()` renders "Code: %d, Message: %s[, Error: %v], Timestamp: %s". The message can itself contain the text ", Error: ". A Go RFC 3339 timestamp never does, but the model keeps the timestamp as opaque text, which may. So whether an error is wrapped cannot be read from a plain substring search. The contracts therefore place the segment: it starts right after the "Code: …, Message: …" header exactly when the wrapped error is non-nil. Two injectivity lemmas add that the rendered text determines the code, and that with the other fields fixed it determines the wrapped error's text.

## Model

| member | source | states |
|---|---|---|
| Text.ToLower | errors/errors.go:105 | lower-casing keeps the length and maps every character through the ASCII lower-case map |
| Text.CaseChangesAreBlind | internal/errors/errors.go:110 | lower-casing a string leaves it equal to the original up to letter case; the upper-casing half is a fact about the ASCII-only model, since the library never upper-cases |
| Text.Contains | errors/errors.go:105 | `strings.Contains` as a scan: true iff the substring occurs at some index of the string |
| Text.ContainsIgnoreCase | errors/errors.go:104-106 | true iff some window of the source equals the substring up to ASCII letter case |
| Text.ContainsIgnoreCaseIsCaseBlind | internal/errors/errors.go:109-111 | changing the letter case of either argument does not change the result |
| Text.DecimalParseRoundTrip | errors/errors.go:24 | the `%d` rendering of any integer reads back as that integer |
| Text.IntToDecimal | errors/errors.go:24 | the `%d` text of an integer is nonempty, made of a minus sign and digits only, starts with a minus sign exactly for negatives, has at least one digit after that sign, and has no leading zero unless the integer is 0; `DecimalParseRoundTrip` is its inverse |
| Text.ParseNegative | errors/errors.go:24 | a minus sign followed by digits reads back as the negated value of the digits |
| Text.ParseDigits | errors/errors.go:24 | a nonempty run of digits reads back as its value |
| Text.IntToDecimalInjective | internal/errors/errors.go:25 | two integers with the same `%d` rendering are equal |
| ErrorFormat.Render | errors/errors.go:22-27 | the text opens with "Code: <code>, Message: <message>" and closes with ", Timestamp: <ts>"; an ", Error: " segment follows the header iff a wrapped error is present, and it holds exactly that error's text |
| ErrorFormat.RenderDeterminesCode | errors/errors.go:24-26 | two renderings that are equal have the same code, whatever the other fields |
| ErrorFormat.SameOpeningSameCode | errors/errors.go:24-26 | two "Code: %d, Message: %s" openings of one text carry the same code |
| ErrorFormat.RenderDeterminesWrapped | internal/errors/errors.go:23-28 | with code, message and timestamp fixed, equal renderings have the same wrapped error text, or both have none |
| Retryable.MatchesAnyKeyword | errors/errors.go:94-98 | the keyword loop returns true iff the message contains some keyword of the list, ignoring case |
| Retryable.IsRetryableFields | errors/errors.go:72-100 | true for codes 502, 503, 504 and 408 whatever the message; otherwise true iff one of the six keywords occurs in the message ignoring case |
| Retryable.RetryabilityIsCaseBlind | internal/errors/errors.go:90-103 | messages equal up to letter case get the same verdict |
| Retryable.EmptyMessageNeedsCode | errors/errors.go:85-100 | with an empty message, the verdict is true exactly for the four retryable codes |
| Retryable.EmptyMatchesNoKeyword | errors/errors.go:94-100 | the keyword loop finds none of a list of nonempty keywords in the empty message |
| AppErrors.Error | errors/errors.go:22-27 | `Error()` starts with the code and message header and ends with the timestamp trailer; the ", Error: " segment follows the header iff `Err` is non-nil, and holds `Err`'s own text |
| AppErrors.ErrorText | errors/errors.go:24 | `%v` of a wrapped `*AppError` opens with its own header and ends with its own trailer; any other error prints its own text |
| AppErrors.WrapError | errors/errors.go:38-48 | stores the given code, message, wrapped error, context and creation time unchanged |
| AppErrors.NewError | errors/errors.go:51-60 | stores code, message, context and creation time; `Err` is nil |
| AppErrors.IsRetryable | errors/errors.go:63-101 | false for nil and for any error that is not an `*AppError`; true for the four codes; otherwise true iff the message mentions a keyword ignoring case |
| AppErrors.NewErrorWrapsNil | errors/errors.go:38-60 | `NewError` is `WrapError` with a nil error, and renders without an error segment |
| AppErrors.ErrorTextDeterminesCode | errors/errors.go:22-27 | two errors with the same `Error()` text have the same code |
| AppErrors.ErrorTextShowsWrapping | errors/errors.go:23-26 | with code, message and timestamp equal, equal texts mean both or neither wrap an error, with the same wrapped text |
| AppErrors.RetryabilityIgnoresWrappedError | errors/errors.go:63-101 | the wrapped error never changes whether an `AppError` is retryable |
| AppErrors.WrappingHidesRetryableCause | errors/errors.go:65-82 | `IsRetryable` does not unwrap: whatever error is wrapped, a retryable 503 included, an error with code 500 and an empty message is not retryable |
| AppErrors.RetryabilityIsCaseBlindForMessages | errors/errors.go:94-106 | lower-casing the message does not change the verdict; the upper-casing half is a fact about the ASCII-only model only |
| InternalAppErrors.Error | internal/errors/errors.go:23-28 | as for the public package: the header, the trailer, and an ", Error: " segment after the header iff `Err` is non-nil |
| InternalAppErrors.ErrorText | internal/errors/errors.go:25 | as for the public package: `%v` of an `*AppError` carries its header and trailer, any other error its own text |
| InternalAppErrors.WrapError | internal/errors/errors.go:41-52 | stores code, message, wrapped error, context, creation time and logger unchanged |
| InternalAppErrors.NewError | internal/errors/errors.go:55-65 | stores code, message, context, creation time and logger; `Err` is nil |
| InternalAppErrors.IsRetryable | internal/errors/errors.go:68-106 | false for non-`*AppError` errors; true for the four codes; otherwise true iff a keyword occurs ignoring case |
| InternalAppErrors.NewErrorWrapsNil | internal/errors/errors.go:41-65 | `NewError` is `WrapError` with a nil error, and renders without an error segment |
| InternalAppErrors.ErrorTextDeterminesCode | internal/errors/errors.go:23-28 | equal `Error()` texts have equal codes |
| InternalAppErrors.ErrorTextShowsWrapping | internal/errors/errors.go:24-27 | with the other rendered fields equal, equal texts agree on whether and what error is wrapped |
| InternalAppErrors.RetryabilityIgnoresWrappedError | internal/errors/errors.go:68-106 | the wrapped error never changes the verdict |
| InternalAppErrors.WrappingHidesRetryableCause | internal/errors/errors.go:70-87 | whatever error is wrapped, a retryable 503 included, an error with code 500 and an empty message is not retryable |
| InternalAppErrors.RetryabilityIsCaseBlindForMessages | internal/errors/errors.go:99-111 | lower-casing the message does not change the verdict; the upper-casing half is a fact about the ASCII-only model only |
| InternalAppErrors.LoggerIsInert | internal/errors/errors.go:18-28 | the logger field changes neither the `Error()` text nor the verdict |
| Bulkhead.NewBulkhead | bulkhead/bulkhead.go:20-26 | a new bulkhead has the given capacity and timeout and no permit held |
| Bulkhead.Capacity | bulkhead/bulkhead.go:55-57 | the capacity is never negative on a valid semaphore; `CapacityNeverChanges` is its partner over traces |
| Bulkhead.Usage | bulkhead/bulkhead.go:60-62 | the number of permits held, between 0 and `Capacity()` on a valid semaphore; `UsageWithinCapacity` is its partner over traces |
| Bulkhead.TryAcquire | bulkhead/bulkhead.go:41 | a permit can be taken iff usage is below capacity, and taking it raises usage by exactly one |
| Bulkhead.TryRelease | bulkhead/bulkhead.go:43 | a permit can be returned iff one is held, and returning it lowers usage by exactly one |
| Bulkhead.AcquireThenRelease | bulkhead/bulkhead.go:41-44 | taking and then returning a permit keeps the semaphore valid and restores its state exactly |
| Bulkhead.NewSystem | bulkhead/bulkhead.go:20-26 | the starting system has no calls, zero usage and satisfies the invariant |
| Bulkhead.Next | bulkhead/bulkhead.go:40-51 | a permit raises usage by one and starts `fn`; the timer and context cases end the call with `DeadlineExceeded` or `ctx.Err()` and leave the semaphore unchanged; `fn`'s exit is recorded unchanged and releases one permit; no other call changes |
| Bulkhead.StepPreservesInv | bulkhead/bulkhead.go:23-51 | every event keeps `0 <= usage <= capacity` and usage equal to the number of calls running `fn` |
| Bulkhead.RunPreservesInv | bulkhead/bulkhead.go:39-51 | any interleaving of events keeps that invariant |
| Bulkhead.UsageWithinCapacity | bulkhead/bulkhead.go:55-62 | in every state a new bulkhead can reach, `Usage()` is between 0 and `Capacity()` |
| Bulkhead.CapacityNeverChanges | bulkhead/bulkhead.go:55-57 | no sequence of events changes the capacity or the timeout |
| Bulkhead.NoLeakedPermit | bulkhead/bulkhead.go:41-44 | once every call has returned, `Usage()` is back to 0 |
| Bulkhead.ReleaseNeverBlocks | bulkhead/bulkhead.go:43 | a running call can always release its permit, whatever way `fn` exits |
| Bulkhead.WaitingCallChoices | bulkhead/bulkhead.go:40-51 | a waiting call can always time out, can be cancelled exactly when its context has a `Done()` channel, and can take a permit exactly when one is free: no case has priority |
| Bulkhead.UncancellableCallIsNeverCancelled | bulkhead/bulkhead.go:48-50 | a call whose context has a nil `Done()` channel never returns through the context case, in any trace |
| Bulkhead.OutcomeIsFinal | bulkhead/bulkhead.go:40-51 | a returned call's outcome never changes again |
| Bulkhead.FnRunsAtMostOnce | bulkhead/bulkhead.go:41-44 | in any trace a call takes a permit, and so runs `fn`, at most once, and never once it has stopped waiting |
| Bulkhead.EndsAtMostOnce | bulkhead/bulkhead.go:40-51 | in any trace a call ends at most once, and never again after it has returned |
| Bulkhead.EndsExactlyOnce | bulkhead/bulkhead.go:40-51 | a call that was not yet returned at the start of a trace and has returned at its end was ended by exactly one event of that trace |
| Bulkhead.ExecuteResult | bulkhead/bulkhead.go:43-50 | the caller gets `fn`'s error unchanged (or its panic, carried on); the timer case gives `context.DeadlineExceeded`; the context case gives `ctx.Err()` |
| Bulkhead.ExecuteResultIsAmbiguous | bulkhead/bulkhead.go:44-50 | the timer case, a context past its deadline, and `fn` returning `context.DeadlineExceeded` give the caller the same value; a nil or non-context error can only come from `fn` |
| Bulkhead.ExecuteFragments | bulkhead/bulkhead.go:39-52 | a lone call either runs `fn` (possible iff a permit is free), times out, or is cancelled (possible iff its context can end); each records the case that fired and leaves the semaphore as it found it |
| InternalMetrics.NewManager | internal/metrics/manager.go:12-14 | a new manager has no registrars |
| InternalMetrics.Register | internal/metrics/manager.go:16-18 | the registrar goes at the end; length grows by one and earlier registrars are unchanged and in order |
| InternalMetrics.RegisterAllKeepsOrder | internal/metrics/manager.go:16-18 | registering a list one by one appends exactly that list, in order |
| InternalMetrics.NewManagerThenRegisterAll | internal/metrics/manager.go:12-18 | a new manager after a run of `Register` calls holds exactly the registrars registered, in order |
| InternalMetrics.Init | internal/metrics/manager.go:20-27 | registrars are called in registration order; the result is nil iff all succeed, and then all were called; otherwise the last one called failed, all before it succeeded, and its error is returned wrapped |
| InternalMetrics.InitErrorWrapsCause | internal/metrics/manager.go:22-23 | the returned error's text is "failed to register metrics: " followed by the failing registrar's error text |
| InternalMetrics.InitStopsAtFirstFailure | internal/metrics/manager.go:21-24 | when registrar k is the first to fail, exactly registrars 0..k are called and k's error is returned |
| InternalMetrics.InitFailsAtFirstFailure | internal/metrics/manager.go:21-24 | a failing `Init` stopped at a registrar that failed with the returned cause, and every registrar before it succeeded |
| Metrics.NewManager | metrics/manager.go:14-20 | the package instance is created, empty, only when none exists; an existing one is returned unchanged |
| Metrics.NewManagerIsSingleton | metrics/manager.go:14-20 | any number of further `NewManager` calls return the same instance and leave the package state as the first call left it |
| Metrics.RegisterShared | metrics/manager.go:14-24 | `Register` on the manager `NewManager` returned appends to the package instance itself |
| Metrics.ReplayAppends | metrics/manager.go:14-24 | any sequence of `NewManager` and `Register` calls leaves the package instance holding its earlier registrars followed by those registered, in order |
| Metrics.SingletonSeesEveryRegistration | metrics/manager.go:12-24 | starting from no instance, after any sequence of `NewManager` and `Register` calls, `NewManager` returns a manager holding exactly the registrars registered, in order |
| Metrics.RegistrationIsVisibleToLaterCalls | metrics/manager.go:14-24 | after `m := NewManager(); m.Register(r)`, a later `NewManager()` returns a manager holding `[r]` |
| Metrics.Register | metrics/manager.go:22-24 | the registrar goes at the end; earlier registrars are unchanged and in order |
| Metrics.Init | metrics/manager.go:26-32 | every registrar is called exactly once, in order; one warning message is handed to `log.Printf` per failing registrar, in registration order, carrying its error |
| Metrics.WarningCarriesCause | metrics/manager.go:28-30 | the message `WarningFor` hands to `log.Printf` for one registrar: none iff it succeeds; otherwise exactly one, which opens with "Warning: failed to register metrics: " and has the error text readable after it |
| Metrics.InitSilentIffAllSucceed | metrics/manager.go:26-31 | nothing is logged iff every registrar succeeds |
| Metrics.InitsAgree | metrics/manager.go:26-32 | compared with the internal `Init` on the same registrars: the internal one calls a prefix of what this one calls; it succeeds iff this one logs nothing; when it fails, its cause is this one's first warning |
| Metrics.InitsAgreeOnCalls | metrics/manager.go:26-32 | the internal `Init` calls a prefix of the registrars this one calls |
| Metrics.InitsAgreeOnSuccess | metrics/manager.go:26-32 | the internal `Init` succeeds exactly when this one logs nothing |
| Metrics.InitsAgreeOnFailure | metrics/manager.go:26-32 | when the internal `Init` fails, this one's first warning carries its cause |
| Metrics.FirstWarningIsFirstFailure | metrics/manager.go:26-32 | when registrar k is the first to fail, the first warning is k's warning |

## Left out

- Goroutines, channel blocking, `time.After` timers and `context.Context` mechanics are not modelled. They become a choice among the possible events. No timing or fairness is modelled, so the timeout value is only stored.
- `ctx.Err()` is limited to its two standard values, `Canceled` and `DeadlineExceeded`.
- A panic in `fn` is recorded as the call's outcome, after the deferred release, and `ExecuteResult` says it reaches the caller. How the unwinding proceeds beyond `Execute` is not modelled.
- Releasing a permit and admitting a waiting call are separate events in the model. In Go, a waiting send on the channel can take the freed slot directly as the deferred receive runs. So the model's traces include every Go interleaving and some extra ones. The safety lemmas hold for all of them, and so for Go's.
- `Usage()` is modelled as an exact read of the state. That its value may be stale by the time the caller sees it is a concurrency effect, and it is not modelled.
- `InitBulkheadConfig` is left out: it loads configuration through an external library.
- The logging done by the constructors (`logError`) is left out. The internal package's `logError` skips a nil `Logger`, so there it has no effect on the result. The public package's `logError` calls the package logger, which panics when it has not been set up; see the next two lines.
- AppErrors.WrapError: assumes the package logger was set up (`InitLogger` or `SetLogger`) beforehand. Otherwise `logger.Info` panics with "Logger not initialized. Call InitLogger first." (logger/logger.go:58-62, 65-66) before the error is returned; that panic is not modelled.
- AppErrors.NewError: the same assumption as `WrapError`. Without a set-up package logger, Go panics inside `logError` and no error is returned; that panic is not modelled.
- `time.Now()` and RFC 3339 formatting are left out. The constructors take the creation time as already formatted text.
- The values of the `Context` map (`interface{}`) are kept as text. Of the modelled functions, only `Error()` and `IsRetryable` read `AppError`, and neither looks at the context. The public `logError`, which is not modelled, reads every field, the context included.
- `strings.ToLower` folds all of Unicode. Only the ASCII letters are case-folded here.
- Text.CaseChangesAreBlind: the upper-casing half holds only because folding is ASCII-only. Go's `strings.ToUpper` maps 'ı' (U+0131) to 'I', so lower-casing `strings.ToUpper("ı")` gives "i", not "ı". The lower-casing half also holds in Go.
- AppErrors.RetryabilityIsCaseBlindForMessages: the upper-casing half holds only under ASCII folding. In Go, code 500 with message "tımeout" is not retryable, but `strings.ToUpper("tımeout")` is "TIMEOUT", which is. The lower-casing half, and `Retryable.RetryabilityIsCaseBlind`, hold in Go too.
- InternalAppErrors.RetryabilityIsCaseBlindForMessages: the same limit as the public package. The upper-casing half fails in Go for "tımeout" with code 500.
- AppErrors.IsRetryable: keyword matching folds only ASCII. Go's `strings.ToLower` maps 'İ' (U+0130) to 'i' and the Kelvin sign (U+212A) to 'k'. So "tİmeout", and "networK error" written with a Kelvin sign, are retryable in Go but not in the model.
- InternalAppErrors.IsRetryable: the same ASCII-only limit. "tİmeout", and "networK error" with a Kelvin sign, are retryable in Go but not here.
- A typed nil `*AppError` stored in an `error` interface is not modelled. Such a value counts as non-nil in Go. In the model an error is either nil, an `*AppError` value, or some other error.
- A registrar's `Register()` is modelled only by its result. Its Prometheus side effects are not modelled.
- Metrics.NewManager: modelled for callers that run one after another (`Replay`). The nil check and the assignment at metrics/manager.go:15-17 are not synchronised. Two goroutines making the first call at once can each create an instance, and a `Register` on the overwritten one is lost. That race is not modelled.
- Metrics.WarningCarriesCause: states the message handed to `log.Printf`, not the line written out. The standard logger's date and time prefix (`log.LstdFlags`) and the log output itself are not modelled. The same holds for the warnings of `Metrics.Init`.
- InternalMetrics.Register: concurrent calls race on the `append` at internal/metrics/manager.go:17 and can lose registrations; that race is not modelled.
- Metrics.Register: concurrent calls race on the `append` at metrics/manager.go:23, and can lose registrations; that race is not modelled. The function acts on a manager value. A manager built directly as a struct literal is detached from the package, and for it this is exact. Registration through the singleton is `RegisterShared`, which updates the package state. Other aliasing of `*MetricsManager` pointers is not modelled.
- AppErrors.Error: `*AppError` is a pointer, but the model stores a wrapped `AppError` by value. So a later change to an exported field of a wrapped error does not show in the wrapper's text. A cycle of wrapped errors (`e.Err = e`) makes Go's `Error()` recurse without end; the model's well-founded datatype cannot express such a cycle, so that behaviour is not modelled.
- InternalAppErrors.Error: the same two limits as `AppErrors.Error`. A wrapped error is stored by value, so later field changes do not show, and cycles of wrapped errors, which make Go's `Error()` recurse without end, cannot be expressed.
- The logger, metric collectors, the `:2112` HTTP server, tracing, Kafka and gRPC instrumentation are left out: they only call external libraries.
- Configuration structs and `pkg/observability.go` are left out: they only load settings and wire components together.

=== FILE: app_errors.dfy ===
/**
 The public `errors` package: `AppError`, its `Error()` text, the two
 constructors, and `IsRetryable`. Timestamps arrive already formatted as
 RFC 3339 text, and the logging the constructors do is not modelled.
 */
module AppErrors {
  import opened Wrappers
  import opened Text
  import opened ErrorFormat
  import opened Retryable

  /** An entry of the free-form context map, kept as its rendered value. */
  type Context = map<string, string>

  datatype AppError = AppError(code: int, message: string, err: GoError, timestamp: string, context: Context)

  /** A value of Go's `error` interface: nil, an `*AppError`, or an error of any other type. */
  datatype GoError = Nil | App(app: AppError) | Other(text: string)

  /** What `%v` prints for a non-nil error: its `Error()` text. */
  function ErrorText(g: GoError): (r: string)
    requires !g.Nil?
    ensures g.App? ==> Header(g.app.code, g.app.message) <= r
    ensures g.App? ==> |Trailer(g.app.timestamp)| <= |r| && r[|r| - |Trailer(g.app.timestamp)|..] == Trailer(g.app.timestamp)
    ensures g.Other? ==> r == g.text
    decreases g, 1
  {
    match g
    case App(a) => Error(a)
    case Other(t) => t
  }

  function Wrapped(e: AppError): (r: Option<string>)
    ensures r.None? <==> e.err.Nil?
    decreases e, 0
  {
    if e.err.Nil? then None else Some(ErrorText(e.err))
  }

  /** `(*AppError).Error()`. */
  function Error(e: AppError): (r: string)
    ensures Header(e.code, e.message) <= r
    ensures |Header(e.code, e.message)| + |Trailer(e.timestamp)| <= |r|
    ensures r[|r| - |Trailer(e.timestamp)|..] == Trailer(e.timestamp)
    ensures ErrorSegmentAfterHeader(r, e.code, e.message) <==> !e.err.Nil?
    ensures !e.err.Nil? ==>
      |Header(e.code, e.message)| + |ErrorLabel| + |ErrorText(e.err)| + |Trailer(e.timestamp)| == |r| &&
      r[|Header(e.code, e.message)| + |ErrorLabel|..|r| - |Trailer(e.timestamp)|] == ErrorText(e.err)
    decreases e, 2
  {
    Render(e.code, e.message, Wrapped(e), e.timestamp)
  }

  /** `WrapError`: stores its arguments; `now` is the constructor's `time.Now()`. */
  function WrapError(err: GoError, message: string, code: int, context: Context, now: string): (e: AppError)
    ensures e.code == code && e.message == message && e.err == err
    ensures e.context == context && e.timestamp == now
  {
    AppError(code, message, err, now, context)
  }

  /** `NewError`: the same, with no wrapped error. */
  function NewError(message: string, code: int, context: Context, now: string): (e: AppError)
    ensures e.code == code && e.message == message && e.err.Nil?
    ensures e.context == context && e.timestamp == now
  {
    AppError(code, message, Nil, now, context)
  }

  /** `IsRetryable`: only an `*AppError` can be retryable, by its code or by a keyword of its message. */
  function IsRetryable(err: GoError): (r: bool)
    ensures !err.App? ==> !r
    ensures err.App? && err.app.code in RetryableCodes ==> r
    ensures err.App? && err.app.code !in RetryableCodes ==> (r <==> MentionsTransientCondition(err.app.message))
  {
    match err
    case App(a) => IsRetryableFields(a.code, a.message)
    case _ => false
  }

  /** The two constructors differ only in the wrapped error. */
  lemma NewErrorWrapsNil(message: string, code: int, context: Context, now: string)
    ensures NewError(message, code, context, now) == WrapError(Nil, message, code, context, now)
    ensures Error(NewError(message, code, context, now)) == Render(code, message, None, now)
  {
  }

  /** Two errors with the same text carry the same code. */
  lemma ErrorTextDeterminesCode(e1: AppError, e2: AppError)
    ensures Error(e1) == Error(e2) ==> e1.code == e2.code
  {
    RenderDeterminesCode(e1.code, e1.message, Wrapped(e1), e1.timestamp, e2.code, e2.message, Wrapped(e2), e2.timestamp);
  }

  /** Wrapping changes the text: with the other fields equal, a nil and a non-nil wrapped error render differently. */
  lemma ErrorTextShowsWrapping(e1: AppError, e2: AppError)
    requires e1.code == e2.code && e1.message == e2.message && e1.timestamp == e2.timestamp
    requires Error(e1) == Error(e2)
    ensures e1.err.Nil? <==> e2.err.Nil?
    ensures !e1.err.Nil? ==> ErrorText(e1.err) == ErrorText(e2.err)
  {
    RenderDeterminesWrapped(e1.code, e1.message, Wrapped(e1), Wrapped(e2), e1.timestamp);
  }

  /** The wrapped error plays no part in the classification. */
  lemma RetryabilityIgnoresWrappedError(err1: GoError, err2: GoError, message: string, code: int,
                                        context: Context, now: string)
    ensures IsRetryable(App(WrapError(err1, message, code, context, now)))
         == IsRetryable(App(WrapError(err2, message, code, context, now)))
  {
  }

  /**
   `IsRetryable` does not look inside: whatever error is wrapped, even a
   retryable one such as a 503, an error with code 500 and an empty message
   is not retryable.
   */
  lemma WrappingHidesRetryableCause(inner: GoError, context: Context, now: string)
    ensures IsRetryable(App(NewError("", 503, context, now)))
    ensures !IsRetryable(App(WrapError(inner, "", 500, context, now)))
  {
    EmptyMessageNeedsCode(500);
  }

  /**
   * Changing the letter case of the message never changes the verdict. The
   * upper-casing half is a fact about the ASCII-only model; the library never
   * upper-cases a message.
   */
  lemma RetryabilityIsCaseBlindForMessages(e: AppError)
    ensures IsRetryable(App(e)) == IsRetryable(App(e.(message := ToUpper(e.message))))
    ensures IsRetryable(App(e)) == IsRetryable(App(e.(message := ToLower(e.message))))
  {
    CaseChangesAreBlind(e.message);
    RetryabilityIsCaseBlind(e.code, e.message, ToUpper(e.message));
    RetryabilityIsCaseBlind(e.code, e.message, ToLower(e.message));
  }
}

=== FILE: bulkhead.dfy ===
/**
 The bulkhead: a counting semaphore of fixed capacity guarding `Execute`.

 The buffered channel becomes a count of held permits, and the goroutines
 racing through `Execute` become an event trace over a table of calls. A
 waiting call may take a permit (only while one is free), see its timer fire,
 or see its context end (only when `ctx.Done()` is a channel at all); when
 several are possible any of them may happen,
 as with Go's choice among ready `select` cases. No timing is modelled.
 */
module Bulkhead {
  import opened Wrappers

  /** A `time.Duration`; the model only stores it. */
  type Duration = int

  /** The semaphore: `held` is the channel's length, `capacity` its buffer size. */
  datatype Bulkhead = Bulkhead(capacity: int, held: int, timeout: Duration)

  predicate Valid(b: Bulkhead) {
    0 <= b.held <= b.capacity
  }

  /** `Capacity()`: the buffer size, never negative on a valid semaphore. */
  function Capacity(b: Bulkhead): (r: int)
    ensures Valid(b) ==> r >= 0
  {
    b.capacity
  }

  /** `Usage()`: the channel's length, the permits held, which a valid semaphore keeps within its capacity. */
  function Usage(b: Bulkhead): (r: int)
    ensures Valid(b) ==> 0 <= r <= Capacity(b)
  {
    b.held
  }

  /** `NewBulkhead`: no validation; `make` panics on a negative capacity, so none is admitted. */
  function NewBulkhead(capacity: int, timeout: Duration): (b: Bulkhead)
    requires capacity >= 0
    ensures Valid(b)
    ensures Capacity(b) == capacity && Usage(b) == 0 && b.timeout == timeout
  {
    Bulkhead(capacity, 0, timeout)
  }

  /** The send `b.semaphore <- struct{}{}`: ready only while the buffer has room. */
  function TryAcquire(b: Bulkhead): (r: Option<Bulkhead>)
    ensures r.Some? <==> Usage(b) < Capacity(b)
    ensures r.Some? ==> Usage(r.value) == Usage(b) + 1
    ensures r.Some? ==> Capacity(r.value) == Capacity(b) && r.value.timeout == b.timeout
  {
    if b.held < b.capacity then Some(b.(held := b.held + 1)) else None
  }

  /** The deferred receive `<-b.semaphore`: ready only while the buffer is non-empty. */
  function TryRelease(b: Bulkhead): (r: Option<Bulkhead>)
    ensures r.Some? <==> Usage(b) > 0
    ensures r.Some? ==> Usage(r.value) == Usage(b) - 1
    ensures r.Some? ==> Capacity(r.value) == Capacity(b) && r.value.timeout == b.timeout
  {
    if b.held > 0 then Some(b.(held := b.held - 1)) else None
  }

  /** Taking a permit keeps the semaphore valid, and giving it back restores the state exactly. */
  lemma AcquireThenRelease(b: Bulkhead)
    requires Valid(b) && Usage(b) < Capacity(b)
    ensures Valid(TryAcquire(b).value)
    ensures TryRelease(TryAcquire(b).value) == Some(b)
  {
  }

  // ---------------------------------------------------------------- calls

  /** The two values of `ctx.Err()`, `context.Canceled` and `context.DeadlineExceeded`. */
  datatype ContextError = Canceled | DeadlineExceeded

  /**
   A non-nil Go `error`: one of the two context errors, or any other error,
   known by its text. `fn` may return a context error just as `Execute` may.
   */
  datatype ErrorValue = ContextErr(ctx: ContextError) | OtherErr(text: string)

  /** How `fn` left: a returned error (`None` is nil), or a panic the deferred release also covers. */
  datatype FnExit = Returned(err: Option<ErrorValue>) | Panicked(value: string)

  /**
   Which `select` case a call went through: it ran `fn`, whose exit is kept;
   the timer fired; or the context ended with the given `ctx.Err()`.
   */
  datatype Outcome = Ran(exit: FnExit) | TimedOut | ContextDone(cause: ContextError)

  /** What the caller of `Execute` gets back: an error (`None` is nil), or `fn`'s panic, carried on. */
  datatype CallerResult = ReturnsError(err: Option<ErrorValue>) | PanicsWith(value: string)

  /** The return of `Execute` for each case of its `select`. */
  function ExecuteResult(o: Outcome): (r: CallerResult)
    ensures o.Ran? && o.exit.Returned? ==> r == ReturnsError(o.exit.err)
    ensures o.Ran? && o.exit.Panicked? ==> r == PanicsWith(o.exit.value)
    ensures o.TimedOut? ==> r == ReturnsError(Some(ContextErr(DeadlineExceeded)))
    ensures o.ContextDone? ==> r == ReturnsError(Some(ContextErr(o.cause)))
    ensures !o.Ran? ==> r.ReturnsError? && r.err.Some? && r.err.value.ContextErr?
  {
    match o
    case Ran(Returned(err)) => ReturnsError(err)
    case Ran(Panicked(v)) => PanicsWith(v)
    case TimedOut => ReturnsError(Some(ContextErr(DeadlineExceeded)))
    case ContextDone(cause) => ReturnsError(Some(ContextErr(cause)))
  }

  /**
   The caller cannot tell which case fired from the error alone: the timer, a
   context past its deadline and an `fn` returning `context.DeadlineExceeded`
   all hand back the same value, and a non-context error can only come from `fn`.
   */
  lemma ExecuteResultIsAmbiguous(o: Outcome, text: string)
    ensures ExecuteResult(TimedOut) == ExecuteResult(ContextDone(DeadlineExceeded))
    ensures ExecuteResult(TimedOut) == ExecuteResult(Ran(Returned(Some(ContextErr(DeadlineExceeded)))))
    ensures ExecuteResult(o) == ReturnsError(Some(OtherErr(text))) ==> o == Ran(Returned(Some(OtherErr(text))))
    ensures ExecuteResult(o) == ReturnsError(None) ==> o == Ran(Returned(None))
  {
  }

  /**
   Where one call stands: blocked in the `select`, running `fn` with a permit,
   or returned. A waiting call records whether its context can end at all:
   `context.Background()` and `context.TODO()` have a nil `Done()` channel,
   whose `select` case never fires.
   */
  datatype Phase = Waiting(cancellable: bool) | Running | Finished(outcome: Outcome)

  /**
   One step of the system. `Begin` starts a new call, numbered by the order of
   arrival, whose context can end exactly when `cancellable`; the others name
   the call they concern.
   */
  datatype Event =
    | Begin(cancellable: bool)
    | Acquire(call: nat)
    | Timeout(call: nat)
    | Cancel(call: nat, cause: ContextError)
    | Return(call: nat, exit: FnExit)

  predicate Concerns(e: Event, c: nat) {
    !e.Begin? && e.call == c
  }

  /** One bulkhead and every `Execute` call made on it so far. */
  datatype System = System(gate: Bulkhead, calls: seq<Phase>)

  function NewSystem(capacity: int, timeout: Duration): (s: System)
    requires capacity >= 0
    ensures Inv(s) && |s.calls| == 0
    ensures Capacity(s.gate) == capacity && Usage(s.gate) == 0
  {
    System(NewBulkhead(capacity, timeout), [])
  }

  /** The events possible in a state. */
  predicate Enabled(s: System, e: Event) {
    match e
    case Begin(_) => true
    case Acquire(c) => c < |s.calls| && s.calls[c].Waiting? && TryAcquire(s.gate).Some?
    case Timeout(c) => c < |s.calls| && s.calls[c].Waiting?
    case Cancel(c, _) => c < |s.calls| && s.calls[c].Waiting? && s.calls[c].cancellable
    case Return(c, _) => c < |s.calls| && s.calls[c].Running? && TryRelease(s.gate).Some?
  }

  /** The state after an enabled event. */
  function Next(s: System, e: Event): (s': System)
    requires Enabled(s, e)
    ensures |s'.calls| == |s.calls| + (if e.Begin? then 1 else 0)
    ensures Capacity(s'.gate) == Capacity(s.gate) && s'.gate.timeout == s.gate.timeout
    ensures forall c :: 0 <= c < |s.calls| && !Concerns(e, c) ==> s'.calls[c] == s.calls[c]
    ensures e.Begin? ==> s'.gate == s.gate && s'.calls[|s.calls|] == Waiting(e.cancellable)
    ensures e.Acquire? ==> Usage(s'.gate) == Usage(s.gate) + 1 && s'.calls[e.call] == Running
    ensures e.Timeout? ==> s'.gate == s.gate && s'.calls[e.call] == Finished(TimedOut)
    ensures e.Cancel? ==> s'.gate == s.gate && s'.calls[e.call] == Finished(ContextDone(e.cause))
    ensures e.Return? ==> Usage(s'.gate) == Usage(s.gate) - 1 && s'.calls[e.call] == Finished(Ran(e.exit))
  {
    match e
    case Begin(k) => System(s.gate, s.calls + [Waiting(k)])
    case Acquire(c) => System(TryAcquire(s.gate).value, s.calls[c := Running])
    case Timeout(c) => System(s.gate, s.calls[c := Finished(TimedOut)])
    case Cancel(c, cause) => System(s.gate, s.calls[c := Finished(ContextDone(cause))])
    case Return(c, exit) => System(TryRelease(s.gate).value, s.calls[c := Finished(Ran(exit))])
  }

  /** Runs a trace; `None` when some event of it is not possible where it occurs. */
  function Run(s: System, trace: seq<Event>): Option<System>
    decreases |trace|
  {
    if |trace| == 0 then Some(s)
    else if Enabled(s, trace[0]) then Run(Next(s, trace[0]), trace[1..])
    else None
  }

  // ---------------------------------------------------------------- permit accounting

  function Holds(p: Phase): nat { if p.Running? then 1 else 0 }

  /** The number of calls currently running `fn`. */
  function CountRunning(calls: seq<Phase>): (n: nat)
    ensures n <= |calls|
  {
    if |calls| == 0 then 0 else CountRunning(calls[..|calls| - 1]) + Holds(calls[|calls| - 1])
  }

  lemma CountRunningAppend(calls: seq<Phase>, p: Phase)
    ensures CountRunning(calls + [p]) == CountRunning(calls) + Holds(p)
  {
    assert (calls + [p])[..|calls|] == calls;
  }

  lemma {:induction false} CountRunningUpdate(calls: seq<Phase>, i: nat, p: Phase)
    requires i < |calls|
    ensures CountRunning(calls[i := p]) == CountRunning(calls) - Holds(calls[i]) + Holds(p)
  {
    var n := |calls|;
    if i == n - 1 {
      assert calls[i := p][..n - 1] == calls[..n - 1];
    } else {
      assert calls[i := p][..n - 1] == calls[..n - 1][i := p];
      CountRunningUpdate(calls[..n - 1], i, p);
    }
  }

  lemma {:induction false} RunningCallIsCounted(calls: seq<Phase>, i: nat)
    requires i < |calls| && calls[i].Running?
    ensures CountRunning(calls) >= 1
  {
    if i < |calls| - 1 {
      RunningCallIsCounted(calls[..|calls| - 1], i);
    }
  }

  lemma {:induction false} NoRunningCallCountsZero(calls: seq<Phase>)
    requires forall i :: 0 <= i < |calls| ==> !calls[i].Running?
    ensures CountRunning(calls) == 0
  {
    if |calls| > 0 {
      NoRunningCallCountsZero(calls[..|calls| - 1]);
    }
  }

  /** The invariant: the semaphore is within bounds and each running call holds exactly one permit. */
  predicate Inv(s: System) {
    Valid(s.gate) && Usage(s.gate) == CountRunning(s.calls)
  }

  lemma StepPreservesInv(s: System, e: Event)
    requires Inv(s) && Enabled(s, e)
    ensures Inv(Next(s, e))
  {
    match e
    case Begin(k) => CountRunningAppend(s.calls, Waiting(k));
    case Acquire(c) => CountRunningUpdate(s.calls, c, Running);
    case Timeout(c) => CountRunningUpdate(s.calls, c, Finished(TimedOut));
    case Cancel(c, cause) => CountRunningUpdate(s.calls, c, Finished(ContextDone(cause)));
    case Return(c, exit) => CountRunningUpdate(s.calls, c, Finished(Ran(exit)));
  }

  lemma {:induction false} RunPreservesInv(s: System, trace: seq<Event>)
    requires Inv(s) && Run(s, trace).Some?
    ensures Inv(Run(s, trace).value)
    decreases |trace|
  {
    if |trace| > 0 {
      StepPreservesInv(s, trace[0]);
      RunPreservesInv(Next(s, trace[0]), trace[1..]);
    }
  }

  /** `0 <= Usage() <= Capacity()` in every state a new bulkhead can reach. */
  lemma UsageWithinCapacity(capacity: int, timeout: Duration, trace: seq<Event>)
    requires capacity >= 0 && Run(NewSystem(capacity, timeout), trace).Some?
    ensures 0 <= Usage(Run(NewSystem(capacity, timeout), trace).value.gate) <= capacity
  {
    RunPreservesInv(NewSystem(capacity, timeout), trace);
    CapacityNeverChanges(NewSystem(capacity, timeout), trace);
  }

  /** No event changes the capacity or the timeout, and calls are never forgotten. */
  lemma {:induction false} CapacityNeverChanges(s: System, trace: seq<Event>)
    requires Run(s, trace).Some?
    ensures Capacity(Run(s, trace).value.gate) == Capacity(s.gate)
    ensures Run(s, trace).value.gate.timeout == s.gate.timeout
    ensures |Run(s, trace).value.calls| >= |s.calls|
    decreases |trace|
  {
    if |trace| > 0 {
      CapacityNeverChanges(Next(s, trace[0]), trace[1..]);
    }
  }

  /** Every call has returned. */
  predicate AllReturned(s: System) {
    forall c :: 0 <= c < |s.calls| ==> s.calls[c].Finished?
  }

  /** No leaked permit: once every call has returned, `Usage()` is back to zero. */
  lemma NoLeakedPermit(capacity: int, timeout: Duration, trace: seq<Event>)
    requires capacity >= 0 && Run(NewSystem(capacity, timeout), trace).Some?
    requires AllReturned(Run(NewSystem(capacity, timeout), trace).value)
    ensures Usage(Run(NewSystem(capacity, timeout), trace).value.gate) == 0
  {
    var s := Run(NewSystem(capacity, timeout), trace).value;
    RunPreservesInv(NewSystem(capacity, timeout), trace);
    NoRunningCallCountsZero(s.calls);
  }

  /** The deferred release can never block: a running call can always return, however `fn` exits. */
  lemma ReleaseNeverBlocks(s: System, c: nat, exit: FnExit)
    requires Inv(s) && c < |s.calls| && s.calls[c].Running?
    ensures Enabled(s, Return(c, exit))
  {
    RunningCallIsCounted(s.calls, c);
  }

  /**
   No priority among the `select` cases: a waiting call can always time out,
   can be cancelled exactly when its context can end, and can take a permit
   exactly when one is free.
   */
  lemma WaitingCallChoices(s: System, c: nat, cause: ContextError)
    requires c < |s.calls| && s.calls[c].Waiting?
    ensures Enabled(s, Timeout(c))
    ensures Enabled(s, Cancel(c, cause)) <==> s.calls[c].cancellable
    ensures Enabled(s, Acquire(c)) <==> Usage(s.gate) < Capacity(s.gate)
  {
  }

  /** The call has not ended through its context, and now never can. */
  predicate ContextCannotEnd(p: Phase) {
    p == Waiting(false) || p.Running? || (p.Finished? && !p.outcome.ContextDone?)
  }

  /** A call on a context that can never end (nil `Done()`) never returns through the context case. */
  lemma {:induction false} UncancellableCallIsNeverCancelled(s: System, trace: seq<Event>, c: nat)
    requires Run(s, trace).Some? && c < |s.calls| && ContextCannotEnd(s.calls[c])
    ensures c < |Run(s, trace).value.calls| && ContextCannotEnd(Run(s, trace).value.calls[c])
    decreases |trace|
  {
    if |trace| > 0 {
      UncancellableCallIsNeverCancelled(Next(s, trace[0]), trace[1..], c);
    }
  }

  // ---------------------------------------------------------------- one outcome per call

  /** A returned call's outcome never changes again. */
  lemma {:induction false} OutcomeIsFinal(s: System, trace: seq<Event>, c: nat)
    requires Run(s, trace).Some? && c < |s.calls| && s.calls[c].Finished?
    ensures c < |Run(s, trace).value.calls| && Run(s, trace).value.calls[c] == s.calls[c]
    decreases |trace|
  {
    if |trace| > 0 {
      OutcomeIsFinal(Next(s, trace[0]), trace[1..], c);
    }
  }

  /** How many times a trace hands call `c` a permit, that is, starts its `fn`. */
  function Acquisitions(trace: seq<Event>, c: nat): nat {
    if |trace| == 0 then 0
    else (if trace[0] == Acquire(c) then 1 else 0) + Acquisitions(trace[1..], c)
  }

  /** How many times a trace ends call `c`. */
  function Completions(trace: seq<Event>, c: nat): nat {
    if |trace| == 0 then 0
    else (if !trace[0].Begin? && !trace[0].Acquire? && trace[0].call == c then 1 else 0)
         + Completions(trace[1..], c)
  }

  /** `fn` runs at most once per call, and never for a call that is no longer waiting. */
  lemma {:induction false} FnRunsAtMostOnce(s: System, trace: seq<Event>, c: nat)
    requires Run(s, trace).Some?
    ensures Acquisitions(trace, c) <= (if c < |s.calls| && !s.calls[c].Waiting? then 0 else 1)
    decreases |trace|
  {
    if |trace| > 0 {
      FnRunsAtMostOnce(Next(s, trace[0]), trace[1..], c);
    }
  }

  /** Each call ends at most once, and a returned call never ends again. */
  lemma {:induction false} EndsAtMostOnce(s: System, trace: seq<Event>, c: nat)
    requires Run(s, trace).Some?
    ensures Completions(trace, c) <= (if c < |s.calls| && s.calls[c].Finished? then 0 else 1)
    decreases |trace|
  {
    if |trace| > 0 {
      EndsAtMostOnce(Next(s, trace[0]), trace[1..], c);
    }
  }

  /** A call that has returned was ended by exactly one event of the trace that took it there. */
  lemma {:induction false} EndsExactlyOnce(s: System, trace: seq<Event>, c: nat)
    requires Run(s, trace).Some? && !(c < |s.calls| && s.calls[c].Finished?)
    requires c < |Run(s, trace).value.calls| && Run(s, trace).value.calls[c].Finished?
    ensures Completions(trace, c) == 1
    decreases |trace|
  {
    EndsAtMostOnce(s, trace, c);
    if |trace| == 0 {
      assert false;
    } else if !(!trace[0].Begin? && !trace[0].Acquire? && trace[0].call == c) {
      EndsExactlyOnce(Next(s, trace[0]), trace[1..], c);
    }
  }

  /**
   `Execute` on its own: the three fragments a new call can follow. Each
   records the case that fired, and each leaves `Usage()` where it started.
   */
  lemma ExecuteFragments(s: System, cancellable: bool, exit: FnExit, cause: ContextError)
    requires Inv(s)
    ensures var n := |s.calls|;
      var admitted := Run(s, [Begin(cancellable), Acquire(n), Return(n, exit)]);
      (admitted.Some? <==> Usage(s.gate) < Capacity(s.gate)) &&
      (admitted.Some? ==>
        n < |admitted.value.calls| && admitted.value.calls[n] == Finished(Ran(exit)) && admitted.value.gate == s.gate)
    ensures var n := |s.calls|;
      var timed := Run(s, [Begin(cancellable), Timeout(n)]);
      timed.Some? && n < |timed.value.calls| && timed.value.calls[n] == Finished(TimedOut) && timed.value.gate == s.gate
    ensures var n := |s.calls|;
      var cancelled := Run(s, [Begin(cancellable), Cancel(n, cause)]);
      (cancelled.Some? <==> cancellable) &&
      (cancelled.Some? ==>
        n < |cancelled.value.calls| &&
        cancelled.value.calls[n] == Finished(ContextDone(cause)) && cancelled.value.gate == s.gate)
  {
    var n := |s.calls|;
    var s1 := Next(s, Begin(cancellable));
    assert Run(s, [Begin(cancellable), Timeout(n)]) == Run(s1, [Timeout(n)]);
    assert Run(s1, [Timeout(n)]) == Some(Next(s1, Timeout(n)));
    assert Run(s, [Begin(cancellable), Cancel(n, cause)]) == Run(s1, [Cancel(n, cause)]);
    if cancellable {
      assert Run(s1, [Cancel(n, cause)]) == Some(Next(s1, Cancel(n, cause)));
    } else {
      assert !Enabled(s1, Cancel(n, cause));
    }
    assert Run(s, [Begin(cancellable), Acquire(n), Return(n, exit)]) == Run(s1, [Acquire(n), Return(n, exit)]);
    if Usage(s.gate) < Capacity(s.gate) {
      var s2 := Next(s1, Acquire(n));
      assert Run(s1, [Acquire(n), Return(n, exit)]) == Run(s2, [Return(n, exit)]);
      assert Enabled(s2, Return(n, exit));
      assert Run(s2, [Return(n, exit)]) == Some(Next(s2, Return(n, exit)));
    } else {
      assert !Enabled(s1, Acquire(n));
    }
  }
}

=== FILE: error_format.dfy ===
/**
 The text of `AppError.Error()`, identical in both error packages:
 "Code: %d, Message: %s, Error: %v, Timestamp: %s" when a wrapped error is
 present and "Code: %d, Message: %s, Timestamp: %s" when it is nil.
 */
module ErrorFormat {
  import opened Wrappers
  import opened Text

  const ErrorLabel: string := ", Error: "
  const TimestampLabel: string := ", Timestamp: "

  /** "Code: <code>, Message: <message>", the opening both layouts share. */
  function Header(code: int, message: string): string {
    "Code: " + IntToDecimal(code) + ", Message: " + message
  }

  /** ", Timestamp: <timestamp>", the closing both layouts share. */
  function Trailer(timestamp: string): string {
    TimestampLabel + timestamp
  }

  /** The text right after the header opens an ", Error: " segment. */
  predicate ErrorSegmentAfterHeader(r: string, code: int, message: string) {
    var h := |Header(code, message)|;
    h <= |r| && ErrorLabel <= r[h..]
  }

  /**
   The rendering, with the wrapped error's own text in `wrapped` (`None` when
   the wrapped error is nil).
   */
  function Render(code: int, message: string, wrapped: Option<string>, timestamp: string): (r: string)
    ensures Header(code, message) <= r
    ensures |Header(code, message)| + |Trailer(timestamp)| <= |r|
    ensures r[|r| - |Trailer(timestamp)|..] == Trailer(timestamp)
    ensures ErrorSegmentAfterHeader(r, code, message) <==> wrapped.Some?
    ensures wrapped.Some? ==>
      |Header(code, message)| + |ErrorLabel| + |wrapped.value| + |Trailer(timestamp)| == |r| &&
      r[|Header(code, message)| + |ErrorLabel|..|r| - |Trailer(timestamp)|] == wrapped.value
    ensures wrapped.None? ==> |r| == |Header(code, message)| + |Trailer(timestamp)|
  {
    var h := Header(code, message);
    match wrapped
    case Some(w) =>
      var r := h + ErrorLabel + w + Trailer(timestamp);
      assert r[|h|..] == ErrorLabel + w + Trailer(timestamp);
      assert r[|h| + |ErrorLabel|..|r| - |Trailer(timestamp)|] == w;
      r
    case None =>
      var r := h + Trailer(timestamp);
      assert r[|h|..] == Trailer(timestamp);
      assert r[|h| + 2] == 'T';
      r
  }

  /** In anything that opens with a header, the code's digits sit at index 6, closed by a comma. */
  lemma HeaderPlacesCode(code: int, message: string, r: string)
    requires Header(code, message) <= r
    ensures 6 + |IntToDecimal(code)| < |r|
    ensures r[6..6 + |IntToDecimal(code)|] == IntToDecimal(code)
    ensures r[6 + |IntToDecimal(code)|] == ','
  {
    var d := IntToDecimal(code);
    var h := Header(code, message);
    assert h == "Code: " + d + (", Message: " + message);
    assert h[6..6 + |d|] == d;
    assert h[6 + |d|] == ',';
  }

  /** Two digit runs starting at the same index and each closed by a comma are the same run. */
  lemma CommaClosedRunsAgree(r: string, d1: string, d2: string)
    requires forall k :: 0 <= k < |d1| ==> d1[k] != ','
    requires forall k :: 0 <= k < |d2| ==> d2[k] != ','
    requires 6 + |d1| < |r| && r[6..6 + |d1|] == d1 && r[6 + |d1|] == ','
    requires 6 + |d2| < |r| && r[6..6 + |d2|] == d2 && r[6 + |d2|] == ','
    ensures d1 == d2
  {
  }

  /** Two headers that open the same text carry the same code. */
  lemma SameOpeningSameCode(c1: int, m1: string, c2: int, m2: string, r: string)
    requires Header(c1, m1) <= r && Header(c2, m2) <= r
    ensures c1 == c2
  {
    HeaderPlacesCode(c1, m1, r);
    HeaderPlacesCode(c2, m2, r);
    CommaClosedRunsAgree(r, IntToDecimal(c1), IntToDecimal(c2));
    IntToDecimalInjective(c1, c2);
  }

  /** The code can be read back from a rendering: no two codes render alike. */
  lemma RenderDeterminesCode(c1: int, m1: string, w1: Option<string>, t1: string,
                             c2: int, m2: string, w2: Option<string>, t2: string)
    ensures Render(c1, m1, w1, t1) == Render(c2, m2, w2, t2) ==> c1 == c2
  {
    var r := Render(c1, m1, w1, t1);
    if r == Render(c2, m2, w2, t2) {
      SameOpeningSameCode(c1, m1, c2, m2, r);
    }
  }

  /**
   With the code, message and timestamp fixed, the rendering tells whether an
   error was wrapped and, if so, what its text was.
   */
  lemma RenderDeterminesWrapped(code: int, message: string, w1: Option<string>, w2: Option<string>, timestamp: string)
    requires Render(code, message, w1, timestamp) == Render(code, message, w2, timestamp)
    ensures w1 == w2
  {
  }
}

=== FILE: internal_app_errors.dfy ===
/**
 The internal `errors` package: the public package's `AppError` plus the zap
 logger it was created with. Timestamps arrive already formatted as RFC 3339
 text, and the logging the constructors do is not modelled.
 */
module InternalAppErrors {
  import opened Wrappers
  import opened Text
  import opened ErrorFormat
  import opened Retryable

  /** An entry of the free-form context map, kept as its rendered value. */
  type Context = map<string, string>

  /** A `*zap.Logger`, known only by identity. */
  datatype Logger = Logger(name: string)

  datatype AppError = AppError(code: int, message: string, err: GoError, timestamp: string, context: Context,
                               logger: Option<Logger>)

  /** A value of Go's `error` interface: nil, an `*AppError`, or an error of any other type. */
  datatype GoError = Nil | App(app: AppError) | Other(text: string)

  /** What `%v` prints for a non-nil error: its `Error()` text. */
  function ErrorText(g: GoError): (r: string)
    requires !g.Nil?
    ensures g.App? ==> Header(g.app.code, g.app.message) <= r
    ensures g.App? ==> |Trailer(g.app.timestamp)| <= |r| && r[|r| - |Trailer(g.app.timestamp)|..] == Trailer(g.app.timestamp)
    ensures g.Other? ==> r == g.text
    decreases g, 1
  {
    match g
    case App(a) => Error(a)
    case Other(t) => t
  }

  function Wrapped(e: AppError): (r: Option<string>)
    ensures r.None? <==> e.err.Nil?
    decreases e, 0
  {
    if e.err.Nil? then None else Some(ErrorText(e.err))
  }

  /** `(*AppError).Error()`. */
  function Error(e: AppError): (r: string)
    ensures Header(e.code, e.message) <= r
    ensures |Header(e.code, e.message)| + |Trailer(e.timestamp)| <= |r|
    ensures r[|r| - |Trailer(e.timestamp)|..] == Trailer(e.timestamp)
    ensures ErrorSegmentAfterHeader(r, e.code, e.message) <==> !e.err.Nil?
    ensures !e.err.Nil? ==>
      |Header(e.code, e.message)| + |ErrorLabel| + |ErrorText(e.err)| + |Trailer(e.timestamp)| == |r| &&
      r[|Header(e.code, e.message)| + |ErrorLabel|..|r| - |Trailer(e.timestamp)|] == ErrorText(e.err)
    decreases e, 2
  {
    Render(e.code, e.message, Wrapped(e), e.timestamp)
  }

  /** `WrapError`: stores its arguments; `now` is the constructor's `time.Now()`. */
  function WrapError(logger: Option<Logger>, err: GoError, message: string, code: int, context: Context,
                     now: string): (e: AppError)
    ensures e.code == code && e.message == message && e.err == err
    ensures e.context == context && e.timestamp == now && e.logger == logger
  {
    AppError(code, message, err, now, context, logger)
  }

  /** `NewError`: the same, with no wrapped error. */
  function NewError(logger: Option<Logger>, message: string, code: int, context: Context, now: string): (e: AppError)
    ensures e.code == code && e.message == message && e.err.Nil?
    ensures e.context == context && e.timestamp == now && e.logger == logger
  {
    AppError(code, message, Nil, now, context, logger)
  }

  /** `IsRetryable`: only an `*AppError` can be retryable, by its code or by a keyword of its message. */
  function IsRetryable(err: GoError): (r: bool)
    ensures !err.App? ==> !r
    ensures err.App? && err.app.code in RetryableCodes ==> r
    ensures err.App? && err.app.code !in RetryableCodes ==> (r <==> MentionsTransientCondition(err.app.message))
  {
    match err
    case App(a) => IsRetryableFields(a.code, a.message)
    case _ => false
  }

  /** The two constructors differ only in the wrapped error. */
  lemma NewErrorWrapsNil(logger: Option<Logger>, message: string, code: int, context: Context, now: string)
    ensures NewError(logger, message, code, context, now) == WrapError(logger, Nil, message, code, context, now)
    ensures Error(NewError(logger, message, code, context, now)) == Render(code, message, None, now)
  {
  }

  /** Two errors with the same text carry the same code. */
  lemma ErrorTextDeterminesCode(e1: AppError, e2: AppError)
    ensures Error(e1) == Error(e2) ==> e1.code == e2.code
  {
    RenderDeterminesCode(e1.code, e1.message, Wrapped(e1), e1.timestamp, e2.code, e2.message, Wrapped(e2), e2.timestamp);
  }

  /** Wrapping changes the text: with the other fields equal, a nil and a non-nil wrapped error render differently. */
  lemma ErrorTextShowsWrapping(e1: AppError, e2: AppError)
    requires e1.code == e2.code && e1.message == e2.message && e1.timestamp == e2.timestamp
    requires Error(e1) == Error(e2)
    ensures e1.err.Nil? <==> e2.err.Nil?
    ensures !e1.err.Nil? ==> ErrorText(e1.err) == ErrorText(e2.err)
  {
    RenderDeterminesWrapped(e1.code, e1.message, Wrapped(e1), Wrapped(e2), e1.timestamp);
  }

  /** The wrapped error plays no part in the classification. */
  lemma RetryabilityIgnoresWrappedError(logger: Option<Logger>, err1: GoError, err2: GoError, message: string,
                                        code: int, context: Context, now: string)
    ensures IsRetryable(App(WrapError(logger, err1, message, code, context, now)))
         == IsRetryable(App(WrapError(logger, err2, message, code, context, now)))
  {
  }

  /**
   `IsRetryable` does not look inside: whatever error is wrapped, even a
   retryable one such as a 503, an error with code 500 and an empty message
   is not retryable.
   */
  lemma WrappingHidesRetryableCause(logger: Option<Logger>, inner: GoError, context: Context, now: string)
    ensures IsRetryable(App(NewError(logger, "", 503, context, now)))
    ensures !IsRetryable(App(WrapError(logger, inner, "", 500, context, now)))
  {
    EmptyMessageNeedsCode(500);
  }

  /**
   * Changing the letter case of the message never changes the verdict. The
   * upper-casing half is a fact about the ASCII-only model; the library never
   * upper-cases a message.
   */
  lemma RetryabilityIsCaseBlindForMessages(e: AppError)
    ensures IsRetryable(App(e)) == IsRetryable(App(e.(message := ToUpper(e.message))))
    ensures IsRetryable(App(e)) == IsRetryable(App(e.(message := ToLower(e.message))))
  {
    CaseChangesAreBlind(e.message);
    RetryabilityIsCaseBlind(e.code, e.message, ToUpper(e.message));
    RetryabilityIsCaseBlind(e.code, e.message, ToLower(e.message));
  }

  /** The logger is carried along but neither the text nor the classification depends on it. */
  lemma LoggerIsInert(e: AppError, other: Option<Logger>)
    ensures Error(e.(logger := other)) == Error(e)
    ensures IsRetryable(App(e.(logger := other))) == IsRetryable(App(e))
  {
  }
}

=== FILE: internal_metrics.dfy ===
/**
 The internal `metrics` package's manager: an ordered list of registrars whose
 `Init` stops at the first failure and hands it back wrapped.
 */
module InternalMetrics {
  import opened Wrappers
  import opened Registrars

  datatype MetricsManager = MetricsManager(registrars: seq<Registrar>)

  /** `NewManager`: a fresh manager with no registrars. */
  function NewManager(): (m: MetricsManager)
    ensures |m.registrars| == 0
  {
    MetricsManager([])
  }

  /** `Register`: appends at the end. */
  function Register(m: MetricsManager, r: Registrar): (m': MetricsManager)
    ensures |m'.registrars| == |m.registrars| + 1
    ensures m'.registrars[..|m.registrars|] == m.registrars
    ensures m'.registrars[|m.registrars|] == r
  {
    MetricsManager(m.registrars + [r])
  }

  /** Registers each of `rs` in turn. */
  function RegisterAll(m: MetricsManager, rs: seq<Registrar>): MetricsManager
    decreases |rs|
  {
    if |rs| == 0 then m else RegisterAll(Register(m, rs[0]), rs[1..])
  }

  /** Registering one by one keeps every registrar, in the order registered. */
  lemma {:induction false} RegisterAllKeepsOrder(m: MetricsManager, rs: seq<Registrar>)
    ensures RegisterAll(m, rs).registrars == m.registrars + rs
    decreases |rs|
  {
    if |rs| > 0 {
      RegisterAllKeepsOrder(Register(m, rs[0]), rs[1..]);
      assert m.registrars + [rs[0]] + rs[1..] == m.registrars + rs;
    }
  }

  lemma NewManagerThenRegisterAll(rs: seq<Registrar>)
    ensures RegisterAll(NewManager(), rs).registrars == rs
  {
    RegisterAllKeepsOrder(NewManager(), rs);
  }

  const InitErrorPrefix: string := "failed to register metrics: "

  /** The error `Init` returns: the registrar's error wrapped with `%w`, so `Unwrap` gives back `cause`. */
  datatype InitError = InitError(cause: string)

  function InitErrorText(e: InitError): string {
    InitErrorPrefix + e.cause
  }

  /** The registrars `Init` called, in call order, and the error it returned (`None` for nil). */
  datatype InitReport = InitReport(invoked: seq<Registrar>, err: Option<InitError>)

  /** `Init`: calls the registrars in order and returns at the first failure. */
  function Init(m: MetricsManager): (r: InitReport)
    ensures r.invoked <= m.registrars
    ensures r.err.None? <==> AllSucceed(m.registrars)
    ensures r.err.None? ==> r.invoked == m.registrars
    ensures r.err.Some? ==>
      |r.invoked| >= 1 && r.invoked[|r.invoked| - 1].failure == Some(r.err.value.cause)
    ensures forall i :: 0 <= i < |r.invoked| - 1 ==> Succeeds(r.invoked[i])
    decreases |m.registrars|
  {
    var regs := m.registrars;
    if |regs| == 0 then InitReport([], None)
    else match regs[0].failure
      case Some(f) => InitReport([regs[0]], Some(InitError(f)))
      case None =>
        var rest := Init(MetricsManager(regs[1..]));
        AllSucceedTail(regs);
        InitReport([regs[0]] + rest.invoked, rest.err)
  }

  /** After a first registrar that succeeds, all succeed exactly when the rest do. */
  lemma AllSucceedTail(regs: seq<Registrar>)
    requires |regs| > 0 && Succeeds(regs[0])
    ensures AllSucceed(regs) <==> AllSucceed(regs[1..])
  {
    if AllSucceed(regs[1..]) {
      forall i | 0 < i < |regs| ensures Succeeds(regs[i]) { assert regs[i] == regs[1..][i - 1]; }
    }
  }

  /** The first failing registrar is the last one called, and its error is the one returned. */
  lemma InitStopsAtFirstFailure(m: MetricsManager, k: nat)
    requires k < |m.registrars| && !Succeeds(m.registrars[k])
    requires forall i :: 0 <= i < k ==> Succeeds(m.registrars[i])
    ensures Init(m).invoked == m.registrars[..k + 1]
    ensures Init(m).err == Some(InitError(m.registrars[k].failure.value))
  {
    var r := Init(m);
    assert r.err.Some?;
    var n := |r.invoked|;
    assert r.invoked == m.registrars[..n];
    assert n == k + 1;
  }

  /** A failing `Init` stopped at a registrar `k` that failed with the returned cause, after only successes. */
  lemma InitFailsAtFirstFailure(rs: seq<Registrar>) returns (k: nat)
    requires Init(MetricsManager(rs)).err.Some?
    ensures k < |rs| && rs[k].failure == Some(Init(MetricsManager(rs)).err.value.cause)
    ensures forall i :: 0 <= i < k ==> Succeeds(rs[i])
  {
    var r := Init(MetricsManager(rs));
    k := |r.invoked| - 1;
    assert r.invoked == rs[..|r.invoked|];
    assert r.invoked[k] == rs[k];
    forall i | 0 <= i < k ensures Succeeds(rs[i]) { assert r.invoked[i] == rs[i]; }
  }

  /**
   The returned error wraps the failing registrar's error with `%w`: its text
   is the fixed prefix followed by that error's text.
   */
  lemma InitErrorWrapsCause(m: MetricsManager)
    requires Init(m).err.Some?
    ensures var t := InitErrorText(Init(m).err.value);
      InitErrorPrefix <= t && t[|InitErrorPrefix|..] == Init(m).invoked[|Init(m).invoked| - 1].failure.value
  {
    var t := InitErrorText(Init(m).err.value);
    assert t[|InitErrorPrefix|..] == Init(m).err.value.cause;
  }
}

=== FILE: metrics_manager.dfy ===
/**
 The public `metrics` package's manager: a lazily created package-wide
 instance whose `Init` calls every registrar, logging each failure and
 returning nothing. The package variable `manager` is threaded explicitly as
 `Package`, and a registration through the pointer `NewManager` hands out is
 a registration on that package instance (`RegisterShared`); the log lines
 `Init` prints are its result.
 */
module Metrics {
  import opened Wrappers
  import opened Registrars
  import InternalMetrics

  datatype MetricsManager = MetricsManager(registrars: seq<Registrar>)

  /** The package variable `manager`: `None` until the first `NewManager`. */
  datatype Package = Package(manager: Option<MetricsManager>)

  /** `NewManager`: creates the instance only when none exists, and returns the one that does. */
  function NewManager(p: Package): (r: (Package, MetricsManager))
    ensures r.0.manager == Some(r.1)
    ensures p.manager.Some? ==> r.0 == p && r.1 == p.manager.value
    ensures p.manager.None? ==> |r.1.registrars| == 0
  {
    match p.manager
    case Some(m) => (p, m)
    case None => (Package(Some(MetricsManager([]))), MetricsManager([]))
  }

  /** Every later call returns the instance the first call produced, and changes nothing. */
  lemma {:induction false} NewManagerIsSingleton(p: Package, calls: nat)
    ensures NewManagerRepeated(NewManager(p).0, calls) == NewManager(p)
    decreases calls
  {
    if calls > 0 {
      NewManagerIsSingleton(p, calls - 1);
    }
  }

  /** `NewManager` called `calls + 1` more times on package state `p`; the last call's result. */
  function NewManagerRepeated(p: Package, calls: nat): (Package, MetricsManager)
    decreases calls
  {
    if calls == 0 then NewManager(p) else NewManagerRepeated(NewManager(p).0, calls - 1)
  }

  /** `Register`: appends at the end. */
  function Register(m: MetricsManager, r: Registrar): (m': MetricsManager)
    ensures |m'.registrars| == |m.registrars| + 1
    ensures m'.registrars[..|m.registrars|] == m.registrars
    ensures m'.registrars[|m.registrars|] == r
  {
    MetricsManager(m.registrars + [r])
  }

  /**
   `NewManager().Register(r)`: the pointer `NewManager` returns is the package
   instance, so the registration lands in the package state.
   */
  function RegisterShared(p: Package, r: Registrar): (p': Package)
    requires p.manager.Some?
    ensures p'.manager.Some?
    ensures p'.manager.value == Register(p.manager.value, r)
  {
    Package(Some(Register(p.manager.value, r)))
  }

  /** A package-level call: `NewManager()`, or `Register(r)` on the manager it returned. */
  datatype PackageCall = CallNewManager | CallRegister(r: Registrar)

  /**
   Replays package calls in order; `None` when a `Register` comes before any
   `NewManager` has created the instance it would be called on.
   */
  function Replay(p: Package, calls: seq<PackageCall>): Option<Package>
    decreases |calls|
  {
    if |calls| == 0 then Some(p)
    else match calls[0]
      case CallNewManager => Replay(NewManager(p).0, calls[1..])
      case CallRegister(r) =>
        if p.manager.Some? then Replay(RegisterShared(p, r), calls[1..]) else None
  }

  /** The registrars a call sequence registers, in order. */
  function Registered(calls: seq<PackageCall>): seq<Registrar>
    decreases |calls|
  {
    if |calls| == 0 then []
    else (if calls[0].CallRegister? then [calls[0].r] else []) + Registered(calls[1..])
  }

  /** The registrars of the package instance, none while it does not exist. */
  function Current(p: Package): seq<Registrar> {
    if p.manager.Some? then p.manager.value.registrars else []
  }

  lemma {:induction false} ReplayAppends(p: Package, calls: seq<PackageCall>)
    requires Replay(p, calls).Some?
    ensures Current(Replay(p, calls).value) == Current(p) + Registered(calls)
    decreases |calls|
  {
    if |calls| > 0 {
      match calls[0]
      case CallNewManager =>
        ReplayAppends(NewManager(p).0, calls[1..]);
      case CallRegister(r) =>
        ReplayAppends(RegisterShared(p, r), calls[1..]);
        assert Current(RegisterShared(p, r)) == Current(p) + [r];
    }
  }

  /**
   The singleton shares its state: after any sequence of `NewManager` and
   `Register` calls on a fresh package, `NewManager` returns a manager holding
   exactly the registrars registered, in the order registered.
   */
  lemma SingletonSeesEveryRegistration(calls: seq<PackageCall>)
    requires Replay(Package(None), calls).Some?
    ensures NewManager(Replay(Package(None), calls).value).1.registrars == Registered(calls)
  {
    ReplayAppends(Package(None), calls);
  }

  /** `m := NewManager(); m.Register(r)`: a later `NewManager()` returns a manager already holding `r`. */
  lemma RegistrationIsVisibleToLaterCalls(r: Registrar)
    ensures NewManager(RegisterShared(NewManager(Package(None)).0, r)).1.registrars == [r]
  {
  }

  const WarningPrefix: string := "Warning: failed to register metrics: "

  /** The registrars `Init` called, in call order, and the lines it logged. */
  datatype InitLog = InitLog(invoked: seq<Registrar>, warnings: seq<string>)

  /** How many of the first `k` registrars fail. */
  function FailuresAmong(rs: seq<Registrar>, k: nat): (n: nat)
    requires k <= |rs|
    ensures n <= k
    decreases k
  {
    if k == 0 then 0 else FailuresAmong(rs, k - 1) + (if Succeeds(rs[k - 1]) then 0 else 1)
  }

  lemma {:induction false} FailuresAmongTail(rs: seq<Registrar>, k: nat)
    requires 1 <= k <= |rs|
    ensures FailuresAmong(rs, k) == (if Succeeds(rs[0]) then 0 else 1) + FailuresAmong(rs[1..], k - 1)
    decreases k
  {
    if k > 1 {
      FailuresAmongTail(rs, k - 1);
    }
  }

  lemma {:induction false} NoFailuresAmong(rs: seq<Registrar>, k: nat)
    requires k <= |rs|
    ensures FailuresAmong(rs, k) == 0 <==> forall i :: 0 <= i < k ==> Succeeds(rs[i])
    decreases k
  {
    if k > 0 {
      NoFailuresAmong(rs, k - 1);
    }
  }

  /** The line logged for one registrar: its warning when it fails, nothing when it succeeds. */
  function WarningFor(r: Registrar): seq<string> {
    if Succeeds(r) then [] else [WarningPrefix + r.failure.value]
  }

  /**
   A registrar's log: nothing when it succeeds; otherwise one line, the fixed
   prefix with the error's text readable after it.
   */
  lemma WarningCarriesCause(r: Registrar)
    ensures |WarningFor(r)| <= 1
    ensures |WarningFor(r)| == 0 <==> Succeeds(r)
    ensures !Succeeds(r) ==> WarningPrefix <= WarningFor(r)[0] && WarningFor(r)[0][|WarningPrefix|..] == r.failure.value
  {
    if !Succeeds(r) {
      assert WarningFor(r)[0] == WarningPrefix + r.failure.value;
    }
  }

  /**
   `warnings` is the log of `rs`: one line per failing registrar, the line for
   the `i`-th registrar at position `FailuresAmong(rs, i)`, and nothing else.
   */
  predicate LogsFailures(rs: seq<Registrar>, warnings: seq<string>) {
    && |warnings| == FailuresAmong(rs, |rs|)
    && forall i {:trigger FailuresAmong(rs, i)} :: 0 <= i < |rs| && !Succeeds(rs[i]) ==>
         FailuresAmong(rs, i) < |warnings| && warnings[FailuresAmong(rs, i)] == WarningPrefix + rs[i].failure.value
  }

  /**
   The line for failing registrar `i` of `rs` sits where `LogsFailures` says,
   given where the log of `rs[1..]` has it.
   */
  lemma LogsFailuresConsAt(rs: seq<Registrar>, warnings: seq<string>, i: nat)
    requires i < |rs| && !Succeeds(rs[i])
    requires i > 0 ==>
      FailuresAmong(rs[1..], i - 1) < |warnings| &&
      warnings[FailuresAmong(rs[1..], i - 1)] == WarningPrefix + rs[i].failure.value
    ensures FailuresAmong(rs, i) < |WarningFor(rs[0]) + warnings|
    ensures (WarningFor(rs[0]) + warnings)[FailuresAmong(rs, i)] == WarningPrefix + rs[i].failure.value
  {
    if i > 0 {
      LaterLineShifts(rs, warnings, i, FailuresAmong(rs[1..], i - 1));
    } else {
      FirstLineIsHead(rs, warnings);
    }
  }

  /** A failing first registrar's line opens the log. */
  lemma FirstLineIsHead(rs: seq<Registrar>, warnings: seq<string>)
    requires |rs| > 0 && !Succeeds(rs[0])
    ensures FailuresAmong(rs, 0) < |WarningFor(rs[0]) + warnings|
    ensures (WarningFor(rs[0]) + warnings)[FailuresAmong(rs, 0)] == WarningPrefix + rs[0].failure.value
  {
    assert FailuresAmong(rs, 0) == 0;
    assert WarningFor(rs[0]) == [WarningPrefix + rs[0].failure.value];
  }

  /** The line of a later registrar moves down by the length of the first registrar's log. */
  lemma LaterLineShifts(rs: seq<Registrar>, warnings: seq<string>, i: nat, j: nat)
    requires 0 < i < |rs| && j < |warnings| && j == FailuresAmong(rs[1..], i - 1)
    ensures FailuresAmong(rs, i) < |WarningFor(rs[0]) + warnings|
    ensures (WarningFor(rs[0]) + warnings)[FailuresAmong(rs, i)] == warnings[j]
  {
    var head := WarningFor(rs[0]);
    assert |head| == (if Succeeds(rs[0]) then 0 else 1);
    FailuresAmongTail(rs, i);
    ShiftedLine(head, warnings, j);
  }

  /** Where `LogsFailures` puts the line of failing registrar `i`. */
  lemma LoggedAt(rs: seq<Registrar>, warnings: seq<string>, i: nat) returns (j: nat)
    requires LogsFailures(rs, warnings) && i < |rs| && !Succeeds(rs[i])
    ensures j == FailuresAmong(rs, i) && j < |warnings| && warnings[j] == WarningPrefix + rs[i].failure.value
  {
    j := FailuresAmong(rs, i);
  }

  lemma ShiftedLine(head: seq<string>, warnings: seq<string>, j: nat)
    requires j < |warnings|
    ensures |head| + j < |head + warnings| && (head + warnings)[|head| + j] == warnings[j]
  {
  }

  /** One line per failure still holds after putting the first registrar's log in front. */
  lemma LogLengthCons(rs: seq<Registrar>, warnings: seq<string>)
    requires |rs| > 0 && |warnings| == FailuresAmong(rs[1..], |rs[1..]|)
    ensures |WarningFor(rs[0]) + warnings| == FailuresAmong(rs, |rs|)
  {
    assert |WarningFor(rs[0])| == (if Succeeds(rs[0]) then 0 else 1);
    FailuresAmongTail(rs, |rs|);
  }

  lemma LogsFailuresCons(rs: seq<Registrar>, warnings: seq<string>)
    requires |rs| > 0 && LogsFailures(rs[1..], warnings)
    ensures LogsFailures(rs, WarningFor(rs[0]) + warnings)
  {
    LogLengthCons(rs, warnings);
    forall i | 0 <= i < |rs| && !Succeeds(rs[i])
      ensures FailuresAmong(rs, i) < |WarningFor(rs[0]) + warnings|
      ensures (WarningFor(rs[0]) + warnings)[FailuresAmong(rs, i)] == WarningPrefix + rs[i].failure.value
    {
      if i > 0 {
        assert rs[1..][i - 1] == rs[i];
        var _ := LoggedAt(rs[1..], warnings, i - 1);
      }
      LogsFailuresConsAt(rs, warnings, i);
    }
  }

  /** `Init`: calls every registrar once, in order, and logs a warning for each failure. */
  function Init(m: MetricsManager): (r: InitLog)
    ensures r.invoked == m.registrars
    ensures LogsFailures(m.registrars, r.warnings)
    decreases |m.registrars|
  {
    var regs := m.registrars;
    if |regs| == 0 then InitLog([], [])
    else
      var rest := Init(MetricsManager(regs[1..]));
      LogsFailuresCons(regs, rest.warnings);
      InitLog([regs[0]] + rest.invoked, WarningFor(regs[0]) + rest.warnings)
  }

  /** `Init` is silent exactly when every registrar succeeds. */
  lemma InitSilentIffAllSucceed(m: MetricsManager)
    ensures Init(m).warnings == [] <==> AllSucceed(m.registrars)
  {
    NoFailuresAmong(m.registrars, |m.registrars|);
  }

  /** When registrar `k` is the first to fail, the first warning is its warning. */
  lemma FirstWarningIsFirstFailure(rs: seq<Registrar>, k: nat, cause: string)
    requires k < |rs| && rs[k].failure == Some(cause)
    requires forall i :: 0 <= i < k ==> Succeeds(rs[i])
    ensures |Init(MetricsManager(rs)).warnings| > 0
    ensures Init(MetricsManager(rs)).warnings[0] == WarningPrefix + cause
  {
    NoFailuresAmong(rs, k);
  }

  /** The internal `Init` calls a prefix of what this one calls. */
  lemma InitsAgreeOnCalls(rs: seq<Registrar>)
    ensures InternalMetrics.Init(InternalMetrics.MetricsManager(rs)).invoked <= Init(MetricsManager(rs)).invoked
  {
  }

  /** The internal `Init` succeeds exactly when this one logs nothing. */
  lemma InitsAgreeOnSuccess(rs: seq<Registrar>)
    ensures InternalMetrics.Init(InternalMetrics.MetricsManager(rs)).err.None? <==> Init(MetricsManager(rs)).warnings == []
  {
    InitSilentIffAllSucceed(MetricsManager(rs));
  }

  /** A failing internal `Init` returns the cause of this one's first warning. */
  lemma InitsAgreeOnFailure(rs: seq<Registrar>)
    requires InternalMetrics.Init(InternalMetrics.MetricsManager(rs)).err.Some?
    ensures |Init(MetricsManager(rs)).warnings| > 0
    ensures Init(MetricsManager(rs)).warnings[0] ==
      WarningPrefix + InternalMetrics.Init(InternalMetrics.MetricsManager(rs)).err.value.cause
  {
    var k := InternalMetrics.InitFailsAtFirstFailure(rs);
    FirstWarningIsFirstFailure(rs, k, InternalMetrics.Init(InternalMetrics.MetricsManager(rs)).err.value.cause);
  }

  /**
   The two `Init`s over the same registrars: the internal one calls a prefix of
   what this one calls, reports success exactly when this one logs nothing,
   and on failure returns the cause of this one's first warning.
   */
  lemma InitsAgree(rs: seq<Registrar>)
    ensures InternalMetrics.Init(InternalMetrics.MetricsManager(rs)).invoked <= Init(MetricsManager(rs)).invoked
    ensures InternalMetrics.Init(InternalMetrics.MetricsManager(rs)).err.None? <==> Init(MetricsManager(rs)).warnings == []
    ensures InternalMetrics.Init(InternalMetrics.MetricsManager(rs)).err.Some? ==>
      |Init(MetricsManager(rs)).warnings| > 0 &&
      Init(MetricsManager(rs)).warnings[0] ==
        WarningPrefix + InternalMetrics.Init(InternalMetrics.MetricsManager(rs)).err.value.cause
  {
    InitsAgreeOnCalls(rs);
    InitsAgreeOnSuccess(rs);
    if InternalMetrics.Init(InternalMetrics.MetricsManager(rs)).err.Some? {
      InitsAgreeOnFailure(rs);
    }
  }
}

=== FILE: registrars.dfy ===
/** A metrics registrar (`Registrar`, also referred to as `MetricsRegistrar`), seen only through what its `Register()` returns. */
module Registrars {
  import opened Wrappers

  /** `failure` is the text of the error `Register()` returns, `None` when it returns nil. */
  datatype Registrar = Registrar(name: string, failure: Option<string>)

  predicate Succeeds(r: Registrar) {
    r.failure.None?
  }

  predicate AllSucceed(rs: seq<Registrar>) {
    forall i :: 0 <= i < |rs| ==> Succeeds(rs[i])
  }
}

=== FILE: retryable.dfy ===
/**
 The classification behind `IsRetryable`, identical in both error packages: a
 structured error is retryable when its code is one of four HTTP statuses or
 its message mentions one of six transient conditions, ignoring letter case.
 */
module Retryable {
  import opened Text

  /** 502 Bad Gateway, 503 Service Unavailable, 504 Gateway Timeout, 408 Request Timeout. */
  const RetryableCodes: set<int> := {502, 503, 504, 408}

  const RetryableKeywords: seq<string> :=
    ["timeout", "temporarily", "connection", "rate limited", "unavailable", "network error"]

  /** Some keyword appears somewhere in the message, up to letter case. */
  ghost predicate MentionsTransientCondition(message: string) {
    exists j, i :: 0 <= j < |RetryableKeywords| && OccursIgnoringCaseAt(message, RetryableKeywords[j], i)
  }

  /** The keyword loop: stops at the first keyword the message contains. */
  function MatchesAnyKeyword(message: string, keywords: seq<string>): (r: bool)
    ensures r <==> exists j :: 0 <= j < |keywords| && ContainsIgnoreCase(message, keywords[j])
  {
    if |keywords| == 0 then false
    else if ContainsIgnoreCase(message, keywords[0]) then true
    else
      var r := MatchesAnyKeyword(message, keywords[1..]);
      assert r <==> exists j :: 0 < j < |keywords| && ContainsIgnoreCase(message, keywords[j]) by {
        forall j | 0 < j < |keywords| ensures keywords[1..][j - 1] == keywords[j] { }
      }
      r
  }

  /** The code check first, then the keyword loop. */
  function IsRetryableFields(code: int, message: string): (r: bool)
    ensures code in RetryableCodes ==> r
    ensures code !in RetryableCodes ==> (r <==> MentionsTransientCondition(message))
  {
    code in RetryableCodes || MatchesAnyKeyword(message, RetryableKeywords)
  }

  /** Changing the letter case of the message never changes the verdict. */
  lemma {:induction false} RetryabilityIsCaseBlind(code: int, message: string, message': string)
    requires EqualsIgnoringCase(message, message')
    ensures IsRetryableFields(code, message) == IsRetryableFields(code, message')
  {
    forall j | 0 <= j < |RetryableKeywords|
      ensures ContainsIgnoreCase(message, RetryableKeywords[j]) == ContainsIgnoreCase(message', RetryableKeywords[j])
    {
      ContainsIgnoreCaseIsCaseBlind(message, message', RetryableKeywords[j], RetryableKeywords[j]);
    }
  }

  /** The empty text contains none of a list of nonempty keywords. */
  lemma {:induction false} EmptyMatchesNoKeyword(keywords: seq<string>)
    requires forall j :: 0 <= j < |keywords| ==> |keywords[j]| > 0
    ensures !MatchesAnyKeyword("", keywords)
  {
    forall j | 0 <= j < |keywords|
      ensures !ContainsIgnoreCase("", keywords[j])
    {
      assert !OccursIgnoringCaseAt("", keywords[j], 0);
    }
  }

  /** A message with no text at all can only be retryable through its code. */
  lemma EmptyMessageNeedsCode(code: int)
    ensures IsRetryableFields(code, "") <==> code in RetryableCodes
  {
    EmptyMatchesNoKeyword(RetryableKeywords);
  }
}

=== FILE: text.dfy ===
/**
 The string operations the error helpers rely on: ASCII letter case
 (`strings.ToLower`), substring search (`strings.Contains`), and decimal
 rendering of integers (the `%d` verb of `fmt`).
 */
module Text {
  import opened Wrappers

  // ---------------------------------------------------------------- letter case

  predicate IsUpperAscii(c: char) { 'A' <= c <= 'Z' }

  predicate IsLowerAscii(c: char) { 'a' <= c <= 'z' }

  function LowerChar(c: char): (r: char)
    ensures IsUpperAscii(c) ==> IsLowerAscii(r) && r as int == c as int + 32
    ensures !IsUpperAscii(c) ==> r == c
  {
    if IsUpperAscii(c) then (c as int + 32) as char else c
  }

  function UpperChar(c: char): (r: char)
    ensures IsLowerAscii(c) ==> IsUpperAscii(r) && r as int == c as int - 32
    ensures !IsLowerAscii(c) ==> r == c
  {
    if IsLowerAscii(c) then (c as int - 32) as char else c
  }

  /** `strings.ToLower`, restricted to the ASCII letters. */
  function ToLower(s: string): (r: string)
    ensures |r| == |s|
    ensures forall i :: 0 <= i < |s| ==> r[i] == LowerChar(s[i])
  {
    if |s| == 0 then [] else [LowerChar(s[0])] + ToLower(s[1..])
  }

  /**
   * Upper-casing of the ASCII letters. The library never upper-cases; this
   * exists only to state, about the model, that letter case is ignored. Go's
   * `strings.ToUpper` folds all of Unicode and does not share every fact below.
   */
  function ToUpper(s: string): (r: string)
    ensures |r| == |s|
    ensures forall i :: 0 <= i < |s| ==> r[i] == UpperChar(s[i])
  {
    if |s| == 0 then [] else [UpperChar(s[0])] + ToUpper(s[1..])
  }

  /** Two strings that differ at most in the case of their letters. */
  predicate EqualsIgnoringCase(a: string, b: string) {
    ToLower(a) == ToLower(b)
  }

  /**
   * Lower-casing is idempotent, and upper-casing first changes nothing. The
   * second half is a fact about the ASCII-only model, not about Go.
   */
  lemma {:induction false} CaseChangesAreBlind(s: string)
    ensures EqualsIgnoringCase(ToLower(s), s)
    ensures EqualsIgnoringCase(ToUpper(s), s)
  {
    var l, u := ToLower(s), ToUpper(s);
    forall i | 0 <= i < |s|
      ensures ToLower(l)[i] == ToLower(s)[i] && ToLower(u)[i] == ToLower(s)[i]
    {
      assert l[i] == LowerChar(s[i]);
      assert u[i] == UpperChar(s[i]);
    }
  }

  lemma LowerOfSlice(s: string, i: int, j: int)
    requires 0 <= i <= j <= |s|
    ensures ToLower(s)[i..j] == ToLower(s[i..j])
  {
  }

  // ---------------------------------------------------------------- substrings

  /** `t` occurs in `s` starting at index `i`. */
  predicate OccursAt(s: string, t: string, i: int) {
    0 <= i && i + |t| <= |s| && s[i..i + |t|] == t
  }

  /** `t` occurs in `s` at index `i` when letter case is ignored. */
  predicate OccursIgnoringCaseAt(s: string, t: string, i: int) {
    0 <= i && i + |t| <= |s| && EqualsIgnoringCase(s[i..i + |t|], t)
  }

  lemma OccursShift(s: string, t: string, i: int)
    requires |s| > 0 && 0 <= i
    ensures OccursAt(s[1..], t, i) <==> OccursAt(s, t, i + 1)
  {
    if 0 <= i && i + |t| <= |s| - 1 {
      assert s[1..][i..i + |t|] == s[i + 1..i + 1 + |t|];
    }
  }

  /** `strings.Contains(s, t)`: a scan for the first position where `t` starts. */
  function Contains(s: string, t: string): (r: bool)
    ensures r <==> exists i :: OccursAt(s, t, i)
    decreases |s|
  {
    if t <= s then
      assert OccursAt(s, t, 0) by { assert s[0..|t|] == s[..|t|]; }
      true
    else if |s| == 0 then
      false
    else
      var r' := Contains(s[1..], t);
      assert r' ==> exists i :: OccursAt(s, t, i) by {
        if r' {
          var i :| OccursAt(s[1..], t, i);
          OccursShift(s, t, i);
        }
      }
      assert (exists i :: OccursAt(s, t, i)) ==> r' by {
        if exists i :: OccursAt(s, t, i) {
          var i :| OccursAt(s, t, i);
          assert i != 0 by { assert s[..|t|] == s[0..|t|]; }
          OccursShift(s, t, i - 1);
        }
      }
      r'
  }

  /** `containsIgnoreCase`: whether some window of `source` equals `substring` up to letter case. */
  function ContainsIgnoreCase(source: string, substring: string): (r: bool)
    ensures r <==> exists i :: OccursIgnoringCaseAt(source, substring, i)
  {
    var ls, lt := ToLower(source), ToLower(substring);
    assert forall i :: OccursAt(ls, lt, i) <==> OccursIgnoringCaseAt(source, substring, i) by {
      forall i
        ensures OccursAt(ls, lt, i) <==> OccursIgnoringCaseAt(source, substring, i)
      {
        if 0 <= i && i + |substring| <= |source| {
          LowerOfSlice(source, i, i + |substring|);
        }
      }
    }
    Contains(ls, lt)
  }

  /** Changing the letter case of either argument does not change the answer. */
  lemma {:induction false} ContainsIgnoreCaseIsCaseBlind(s: string, s': string, t: string, t': string)
    requires EqualsIgnoringCase(s, s') && EqualsIgnoringCase(t, t')
    ensures ContainsIgnoreCase(s, t) == ContainsIgnoreCase(s', t')
  {
    assert |s| == |s'| by { assert |ToLower(s)| == |ToLower(s')|; }
    assert |t| == |t'| by { assert |ToLower(t)| == |ToLower(t')|; }
    forall i | OccursIgnoringCaseAt(s, t, i)
      ensures OccursIgnoringCaseAt(s', t', i)
    {
      LowerOfSlice(s, i, i + |t|);
      LowerOfSlice(s', i, i + |t|);
    }
    forall i | OccursIgnoringCaseAt(s', t', i)
      ensures OccursIgnoringCaseAt(s, t, i)
    {
      LowerOfSlice(s, i, i + |t|);
      LowerOfSlice(s', i, i + |t|);
    }
  }

  // ---------------------------------------------------------------- decimal

  predicate IsDigit(c: char) { '0' <= c <= '9' }

  predicate AllDigits(s: string) {
    forall i :: 0 <= i < |s| ==> IsDigit(s[i])
  }

  function DigitChar(d: nat): (c: char)
    requires d < 10
    ensures IsDigit(c)
  {
    ('0' as int + d) as char
  }

  function DigitValue(c: char): (d: nat)
    requires IsDigit(c)
    ensures d < 10 && DigitChar(d) == c
  {
    c as int - '0' as int
  }

  /** The decimal digits of `n`, most significant first, without leading zeros. */
  function NatToDecimal(n: nat): (r: string)
    ensures |r| >= 1 && AllDigits(r)
    ensures |r| > 1 ==> r[0] != '0'
    ensures n > 0 ==> r[0] != '0'
  {
    if n < 10 then [DigitChar(n)] else NatToDecimal(n / 10) + [DigitChar(n % 10)]
  }

  /** The number a string of decimal digits denotes. */
  function DecimalValue(s: string): nat
    requires AllDigits(s)
  {
    if |s| == 0 then 0 else DecimalValue(s[..|s| - 1]) * 10 + DigitValue(s[|s| - 1])
  }

  lemma {:induction false} DecimalRoundTrip(n: nat)
    ensures DecimalValue(NatToDecimal(n)) == n
  {
    if n >= 10 {
      var s := NatToDecimal(n);
      assert s[..|s| - 1] == NatToDecimal(n / 10);
      DecimalRoundTrip(n / 10);
    }
  }

  /** The `%d` rendering of an integer: a minus sign for negatives, then the digits. */
  function IntToDecimal(i: int): (r: string)
    ensures |r| >= 1
    ensures r[0] == '-' <==> i < 0
    ensures i < 0 ==> |r| >= 2
    ensures forall k :: 0 <= k < |r| ==> r[k] == '-' || IsDigit(r[k])
    ensures i != 0 ==> r[if i < 0 then 1 else 0] != '0'
  {
    if i < 0 then "-" + NatToDecimal(-i) else NatToDecimal(i)
  }

  /** Reads back a rendering made by `IntToDecimal`; `None` for any other text. */
  function ParseDecimal(s: string): Option<int> {
    if |s| >= 2 && s[0] == '-' && AllDigits(s[1..]) then
      var magnitude: int := DecimalValue(s[1..]);
      Some(-magnitude)
    else if |s| >= 1 && AllDigits(s) then Some(DecimalValue(s))
    else None
  }

  lemma DecimalParseRoundTrip(i: int)
    ensures ParseDecimal(IntToDecimal(i)) == Some(i)
  {
    var d := NatToDecimal(if i < 0 then -i else i);
    DecimalRoundTrip(if i < 0 then -i else i);
    if i < 0 {
      ParseNegative(d);
    } else {
      ParseDigits(d);
    }
  }

  lemma ParseNegative(d: string)
    requires |d| >= 1 && AllDigits(d)
    ensures var v: int := DecimalValue(d); ParseDecimal("-" + d) == Some(-v)
  {
    assert ("-" + d)[1..] == d;
  }

  lemma ParseDigits(d: string)
    requires |d| >= 1 && AllDigits(d)
    ensures ParseDecimal(d) == Some(DecimalValue(d))
  {
    assert IsDigit(d[0]);
  }

  lemma IntToDecimalInjective(a: int, b: int)
    requires IntToDecimal(a) == IntToDecimal(b)
    ensures a == b
  {
    DecimalParseRoundTrip(a);
    DecimalParseRoundTrip(b);
  }
}

=== FILE: wrappers.dfy ===
/** Optional values: `None` stands for Go's `nil` wherever an error or pointer may be absent. */
module Wrappers {

  datatype Option<+T> = None | Some(value: T)
}
